=== FILE: README.md ===
# LP tracker core in Dafny

This project models the core of `app_test.py`, a small League-style LP
(league points) tracker. The model covers four operations:

- **`update_rank_and_division`**, the promotion ladder. It spends LP in chunks of 100 and moves a
  player up through divisions and ranks.
- **`register_player`**, which adds a player to the `players` table unless the
  name is already taken.
- **`log_match`**, which applies a win or a loss to a player's standing. It runs
  the ladder, overwrites the player's row and appends one row to the `logs` table.
- **`generate_leaderboard`**, which joins players with their log rows and groups
  them per player. It sums the signed LP changes, counts the games, labels the
  total ("+x" for a gain), gives each row a position by pandas'
  `rank(method='first', ascending=False)` and sorts by that position.

The database is an immutable value `Registry.Db`: a map from player name to
`Standing` (the `players` table), and a sequence of `LogRow` (the `logs` table,
in which a row's position stands for its auto-increment id, index + 1). Each operation returns the next
database together with a status. Where the Python code raises, the model
reports `Raised`; where it never returns, the model reports `Hangs`. In both
cases the database is left unchanged, because nothing is committed.

Files:

- `wrappers.dfy`: `Option` and `Result`.
- `ladder.dfy`: module `Ladder`, the ladder.
- `decimal.dfy`: module `Decimal`, Python's `str(int)` and the "LP Gained/Lost"
  label, each with a reader that recovers the number.
- `registry.dfy`: module `Registry`, registration and match logging.
- `leaderboard.dfy`: module `Leaderboard`, the aggregation and the ranking.

### How the code behaves

The model follows the code as written:

- **Division order.** The divisions list is `['IV', 'III', 'II', 'I']`, and a
  promotion within a rank *decrements* the index (app_test.py:51-52). So
  100 LP moves a player from 'I' to 'II' to 'III' to 'IV'. From 'IV' the
  player goes to the next rank at 'I' (app_test.py:56-57). The game's
  convention has 'IV' as the lowest division and 'I' as the highest; the
  code walks the other way. Worked examples:
  - Iron 'IV' with 150 LP becomes Bronze 'I' with 50.
  - Iron 'I' with 120 becomes Iron 'II' with 20.
  - Challenger 'I' with 150 becomes Challenger 'II' with 50.
- **No ceiling value.** At Challenger 'IV' with LP of at least 100, the body
  sets LP to 100 (app_test.py:59). That keeps the loop guard true forever, so
  the function never returns. It does not return 100. The model makes this
  outcome explicit as `Diverges`. `Ladder.UpdateTerminatesIff` states exactly
  when it happens:
  - `4 * rank index + (3 - division index) + floor(lp / 100) > 35`.
- **No demotion.** Negative LP comes back unchanged, with the same rank and
  division.
- **Errors.** An unknown division string always raises (app_test.py:46), even
  when LP is below 100. An unknown rank string raises only when a rank advance
  is due (app_test.py:54). Below that point it is carried through unchanged.
- **Results other than 'Win' and 'Lose'.** In `log_match`, any result other
  than 'Win' subtracts the magnitude (app_test.py:93). The leaderboard's SQL
  adds the change for 'Win' and subtracts it for 'Lose' (app_test.py:114-115),
  so for those two results it agrees with `log_match`. A result that is
  neither 'Win' nor 'Lose' is subtracted by `log_match` but counts 0 in the
  leaderboard total (app_test.py:116). It still counts as a game.
- **Leaderboard order.** The SQL already orders by total, descending, but it
  leaves the order of ties to SQLite. The order in which rows reach pandas is
  therefore a parameter `order` that lists every registered name once. When
  that order is by non-increasing total, as the SQL delivers it, the
  leaderboard keeps it (`Leaderboard.SortedDeliveryKeepsOrder`). Positions
  are pairwise distinct, so the stability of the final sort does not matter.

## Model

| member | source | states |
|---|---|---|
| `Ladder.ParseRank` | app_test.py:54 | `ranks.index(rank)`: a found index names the given rank string |
| `Ladder.ParseDivision` | app_test.py:46 | `divisions.index(division)`: a found index names the given division string |
| `Ladder.IndexOf` | app_test.py:46 | Python's `list.index`: the first index holding the string, and None (ValueError) exactly when no entry holds it |
| `Ladder.ParseRankFails` | app_test.py:54 | the rank lookup fails exactly on strings absent from the ranks list |
| `Ladder.ParseDivisionFails` | app_test.py:46 | the division lookup fails exactly on strings absent from the divisions list |
| `Ladder.ParseRankName` | app_test.py:43 | every rank name is found at its own index (Iron 0 … Challenger 8) |
| `Ladder.ParseDivisionName` | app_test.py:44 | every division name is found at its own index ('IV' 0 … 'I' 3) |
| `Ladder.Iteration` | app_test.py:50-59 | one pass of the loop body: it fails only at division index 0 with an unknown rank, raising UnknownRank; at Challenger index 0 it sets LP to 100; otherwise it spends exactly 100 LP; an unknown rank only steps the division index down |
| `Ladder.Climb` | app_test.py:49-59 | the loop run to its end: LP below 100 returns the state untouched, and every returned state has LP below 100 |
| `Ladder.ClimbOutcome` | app_test.py:49-59 | a returned walk keeps exactly the LP left after its 100-LP passes; only an unknown rank name makes it raise, with that name |
| `Ladder.ChunksAreDivision` | app_test.py:49-50 | from 100 LP up the loop makes floor(lp/100) passes and leaves lp mod 100; below 100 it makes none |
| `Ladder.Run` | app_test.py:49-59 | the literal loop for a bounded number of passes: LP below 100 exits at once, every exit leaves LP below 100, and a crash comes only from an unlisted rank name, reported by that name |
| `Ladder.DivergesLoopsForever` | app_test.py:49-59 | where the walk diverges, the literal loop is still running after any number of passes |
| `Ladder.ClimbAgreesWithRun` | app_test.py:49-59 | where the walk returns or raises, the literal loop exits with the same state or raises the same error within `Chunks(lp)` passes (floor(lp/100) from 100 up, none below 100) |
| `Ladder.LoopExitsIff` | app_test.py:49-59 | the walk diverges if and only if the literal loop never exits |
| `Ladder.StepAt` | app_test.py:50-57 | below Challenger 'IV', one pass moves a known rung exactly one ladder position up and spends 100 LP |
| `Ladder.ClimbFromKnownRung` | app_test.py:49-59 | from a known rung the walk never raises; for lp ≥ 0 it ends floor(lp/100) positions higher with lp mod 100, or diverges when that target lies beyond Challenger 'IV'; below 100, negative LP included, it stays on its rung with its LP |
| `Ladder.ClimbTerminatesIff` | app_test.py:49-59 | from a known rung the walk ends if and only if position + floor(lp/100) is at most 35 |
| `Ladder.ClimbFromUnknownRank` | app_test.py:51-54 | from an unknown rank name the walk raises if and only if its passes exceed the division index; otherwise it returns that name, with the index lowered by the passes and the remaining LP |
| `Ladder.Finish` | app_test.py:61-62 | the returned triple: the LP the loop left, the division name at the final index (which looks up again to that index), and either the rank name at the final rank index (which looks up again to it) or, for an unlisted rank, that name unchanged; a raise or a non-returning loop passes through unchanged |
| `Ladder.LadderFrom` | app_test.py:47-62 | the loop plus the final lookup: LP below 100 returns the same rank, division and LP; a returned LP is below 100 and is the remainder; only an unknown rank raises |
| `Ladder.UpdateRankAndDivision` | app_test.py:42-62 | an unknown division raises UnknownDivision, and only then; with a known division, LP below 100 (negative included) returns the same rank, division and LP; a returned LP is below 100, and from 100 up it is lp mod 100; any other raise is UnknownRank of the given rank |
| `Ladder.UpdateRaisesOnlyOnUnknownRank` | app_test.py:46-54 | once the division is known, the ladder raises only for a rank name absent from the ranks list |
| `Ladder.UpdateFromKnownRung` | app_test.py:42-62 | for listed rank and division names, the ladder is the walk from that rung, reported by name |
| `Ladder.UpdateTerminatesIff` | app_test.py:49-59 | for listed names the ladder returns if and only if 4·rank + (3 − division index) + floor(lp/100) ≤ 35; otherwise it never returns |
| `Ladder.UpdateFromUnknownRank` | app_test.py:51-57 | with a known division and an unlisted rank, the ladder raises if and only if lp ≥ 100·(division index + 1); otherwise it returns the unlisted rank unchanged |
| `Ladder.IronIvPromotesToBronzeI` | app_test.py:54-57 | Iron 'IV' with 150 LP returns Bronze 'I' with 50 |
| `Ladder.IronIPromotesToIronIi` | app_test.py:51-52 | Iron 'I' with 120 LP returns Iron 'II' with 20 |
| `Ladder.ChallengerIPromotes` | app_test.py:51-52 | Challenger 'I' with 150 LP returns Challenger 'II' with 50 |
| `Ladder.ChallengerIvDiverges` | app_test.py:58-59 | Challenger 'IV' with 100 LP never returns |
| `Registry.Register` | app_test.py:65-77 | a taken name is refused with the database unchanged; a new name is added with exactly the given standing, and nothing else changes |
| `Registry.LogMatch` | app_test.py:80-101 | an unknown player is reported with no change; a missing magnitude counts as 0; the player's new standing is the ladder's result for current LP plus the magnitude on 'Win' and minus it otherwise; a ladder that raises or never returns changes nothing |
| `Registry.LogMatchAppendsOneRow` | app_test.py:93-99 | a logged match keeps the set of players, changes no other player, leaves the player below 100 LP, and appends exactly one row holding the name, the result, the magnitude and the new standing |
| `Registry.LogMatchInsideDivision` | app_test.py:91-97 | when the stored division is one the divisions list holds and the new LP stays below 100, only the player's LP changes, to current ± magnitude, and one row is appended |
| `Registry.RegisterKeepsConsistent` | app_test.py:65-77 | registration preserves the invariant that every log row names a player and each player's latest row records the player's standing |
| `Registry.LogMatchKeepsConsistent` | app_test.py:80-101 | logging a match preserves that invariant, whatever its outcome |
| `Registry.WinThenLoseRestores` | app_test.py:93-97 | a win of m and then a loss of m inside a division give back exactly the original standings, with two rows appended |
| `Registry.BoundaryCrossingIsNotUndone` | app_test.py:93-94 | from Iron 'IV' at 90, a win of 20 gives Bronze 'I' at 10, and the loss of 20 after it gives Bronze 'I' at -10 |
| `Decimal.NatText` | app_test.py:134 | Python's digits of a non-negative int: non-empty, decimal digits only, no leading zero, and reading back to the number |
| `Decimal.IntText` | app_test.py:134 | Python's `str(x)`: digits only for a non-negative number, a leading '-' exactly for a negative one, "0" for zero, no leading zero otherwise, and reading back as `x` |
| `Decimal.Label` | app_test.py:134 | the "LP Gained/Lost" label starts with '+' exactly for a gain and with '-' exactly for a loss, is "0" for zero, has no leading zero, and reads back as the total |
| `Decimal.LabelIsUnique` | app_test.py:134 | any string with the label's sign rules, no leading zero and the right read-back value is the label itself, so the properties above fix `f"+{x}"` / `str(x)` exactly |
| `Leaderboard.Signed` | app_test.py:114-116 | a row's term in the total: for 'Win' and 'Lose' exactly the LP change `log_match` applies for that result, for any other result 0 |
| `Leaderboard.TotalChange` | app_test.py:114-116 | `COALESCE(SUM(...), 0)`: a player without log rows has total 0 |
| `Leaderboard.GamesPlayed` | app_test.py:117 | `COUNT(l.id)`: at most the number of log rows, and 0 exactly when the player has none |
| `Leaderboard.TotalChangeAppend` | app_test.py:114-120 | the total over two stretches of the logs is the sum of their totals, so it does not depend on row order |
| `Leaderboard.GamesPlayedAppend` | app_test.py:117-120 | the game count over two stretches of the logs is the sum of their counts |
| `Leaderboard.LogMatchMovesAggregates` | app_test.py:114-119 | a logged match adds one game and the signed magnitude (+m for 'Win', −m for 'Lose', 0 otherwise) to its player's aggregates and leaves every other player's aggregates alone |
| `Leaderboard.FirstRank` | app_test.py:137 | pandas' `rank(method='first', ascending=False)` as one plus the rows that outrank the row: it lies between 1 and the number of rows |
| `Leaderboard.FirstRankOrder` | app_test.py:137 | of two rows, one has the smaller 'first' rank if and only if it has the larger total, or an equal total and an earlier row |
| `Leaderboard.PositionsArePermutation` | app_test.py:137 | the 'first' ranks are pairwise distinct values in 1..n, ordered by total and then by arrival |
| `Leaderboard.SortedInputKeepsOrder` | app_test.py:121-137 | on rows arriving by non-increasing total, row i gets rank i + 1 |
| `Leaderboard.InsertBy` | app_test.py:140 | inserting into a sequence sorted by distinct keys keeps it sorted, and the result holds the old elements plus the new one |
| `Leaderboard.SortBy` | app_test.py:140 | sorting by distinct keys returns a permutation of the input in strictly ascending key order |
| `Leaderboard.RankedOrder` | app_test.py:137-140 | the rows in sorted order: place k holds the row whose 'first' rank is k + 1; every row appears; each row outranks every row after it |
| `Leaderboard.Leaderboard` | app_test.py:104-141 | one row per registered player, none for names found only in the logs; each row carries the player's standing, game count and exactly the label of the signed total; row k has position k + 1, the player's 'first' rank; totals never rise along the rows and ties keep the arrival order; no players gives no rows |
| `Leaderboard.SortedDeliveryKeepsOrder` | app_test.py:121-140 | when rows arrive by non-increasing total, as the SQL orders them, the leaderboard lists the players in that same order |

## Left out

- The Streamlit UI (forms, pages, messages, images), the podium and the statistics page: presentation only.
- The input constraints of the UI widgets: the core operations accept any string and any integer, within the 64-bit limit below.
- Registry.Register: does not model SQLite's 64-bit INTEGER column. A `current_lp` outside -2^63 .. 2^63 - 1 makes binding raise OverflowError (app_test.py:70), which the `except` at line 74 does not catch; the model registers the player. Integers are unbounded here.
- Registry.LogMatch: does not model the same limit. A magnitude or a new LP outside -2^63 .. 2^63 - 1 makes the UPDATE or INSERT raise before the commit (app_test.py:96-99); the model logs the match.
- Leaderboard.Leaderboard: does not model SQLite's "integer overflow" error from `SUM` (app_test.py:114-116) when a total leaves the 64-bit range; the model returns the unbounded total.
- The `int()` coercion of `lp_change` (app_test.py:91): the magnitude is modelled as an integer already, or None.
- The SQLite connection, schema creation and commits: the database is a value, and a call that raises or never returns commits nothing.
- SQLite's choice of order among tied totals: it is the parameter `order` of `Leaderboard.Leaderboard`.
- The logs table's auto-increment `id`: a row's position in `Db.logs` stands for it (SQLite's ids start at 1, so the id is the index + 1).
- Foreign-key enforcement: SQLite does not enforce it by default. `Registry.Consistent` states the foreign key as an invariant that both operations preserve.
- SQL NULLs in the players table and non-integer LP values: every stored field is a string or an integer.
- Ladder.Climb: it does not loop. Instead it reports `Diverges` at Challenger 'IV' with LP of at least 100. `Ladder.LoopExitsIff` shows that this is exactly the case in which the literal loop never exits.

=== FILE: decimal.dfy ===
/**
 * Decimal text of integers: Python's `str(x)` for an int and the leaderboard's
 * "LP Gained/Lost" label (app_test.py:134), each with a reader that recovers
 * the number, so that a label is shown to carry its total exactly.
 */
module Decimal {
  import opened Wrappers

  predicate IsDigit(c: char) {
    '0' <= c <= '9'
  }

  predicate AllDigits(s: string) {
    forall k :: 0 <= k < |s| ==> IsDigit(s[k])
  }

  function DigitChar(d: nat): (c: char)
    requires d < 10
    ensures IsDigit(c)
  {
    ('0' as int + d) as char
  }

  function DigitValue(c: char): nat
    requires IsDigit(c)
  {
    c as int - '0' as int
  }

  /** The number a string of decimal digits denotes, most significant digit first. */
  function DigitsValue(s: string): nat
    requires AllDigits(s)
    decreases |s|
  {
    if |s| == 0 then 0 else 10 * DigitsValue(s[..|s| - 1]) + DigitValue(s[|s| - 1])
  }

  /** The decimal digits of `n` without leading zeros, as Python prints a non-negative int. */
  function NatText(n: nat): (s: string)
    ensures |s| > 0 && AllDigits(s)
    ensures DigitsValue(s) == n
    ensures |s| > 1 ==> s[0] != '0'
    ensures s[0] == '0' <==> n == 0
    decreases n
  {
    if n < 10 then
      [DigitChar(n)]
    else
      var front := NatText(n / 10);
      var s := front + [DigitChar(n % 10)];
      assert s[..|s| - 1] == front;
      s
  }

  /**
   * Python's `str(x)` for an int: a minus sign exactly for a negative number,
   * then the digits without a leading zero, reading back as `x`.
   */
  function IntText(x: int): (r: string)
    ensures |r| > 0
    ensures r[0] == '-' <==> x < 0
    ensures x == 0 ==> r == "0"
    ensures x < 0 ==> |r| >= 2 && r[1] != '0'
    ensures x > 0 ==> r[0] != '0'
    ensures x >= 0 ==> AllDigits(r)
    ensures ParseLabel(r) == Some(x)
  {
    var digits := NatText(if x < 0 then -x else x);
    assert ("-" + digits)[1..] == digits;
    if x < 0 then "-" + digits else digits
  }

  /**
   * Reads a label back: an optional '+' or '-' followed by at least one
   * decimal digit. None for anything else.
   */
  function ParseLabel(s: string): Option<int> {
    if |s| >= 2 && s[0] == '+' && AllDigits(s[1..]) then Some(DigitsValue(s[1..]))
    else if |s| >= 2 && s[0] == '-' && AllDigits(s[1..]) then Some(-(DigitsValue(s[1..]) as int))
    else if |s| >= 1 && AllDigits(s) then Some(DigitsValue(s))
    else None
  }

  /**
   * The "LP Gained/Lost" label of app_test.py:134: `f"+{x}"` when x > 0 and
   * `f"{x}"` otherwise. It begins with '+' exactly for a gain and with '-'
   * exactly for a loss, carries no leading zero, and reads back as `x`;
   * together these fix the string.
   */
  function Label(x: int): (r: string)
    ensures |r| > 0
    ensures r[0] == '+' <==> x > 0
    ensures r[0] == '-' <==> x < 0
    ensures x == 0 ==> r == "0"
    ensures x != 0 ==> |r| >= 2 && r[1] != '0'
    ensures ParseLabel(r) == Some(x)
  {
    var text := IntText(x);
    assert ("+" + text)[1..] == text;
    if x > 0 then "+" + text else text
  }

  /** A digit string with a non-zero first digit denotes a positive number, at least 10 when it has two digits or more. */
  lemma {:induction false} LeadingDigitBound(s: string)
    requires |s| > 0 && AllDigits(s) && s[0] != '0'
    ensures DigitsValue(s) >= 1
    ensures |s| > 1 ==> DigitsValue(s) >= 10
    decreases |s|
  {
    if |s| > 1 {
      var front := s[..|s| - 1];
      assert front[0] == s[0];
      LeadingDigitBound(front);
    }
  }

  /** Decimal digits without a leading zero are determined by the number they denote. */
  lemma {:induction false} DigitsUnique(a: string, b: string)
    requires |a| > 0 && AllDigits(a) && (|a| > 1 ==> a[0] != '0')
    requires |b| > 0 && AllDigits(b) && (|b| > 1 ==> b[0] != '0')
    requires DigitsValue(a) == DigitsValue(b)
    ensures a == b
    decreases |a|
  {
    if |a| > 1 && |b| > 1 {
      var fa, fb := a[..|a| - 1], b[..|b| - 1];
      assert fa[0] == a[0] && fb[0] == b[0];
      assert DigitsValue(fa) == DigitsValue(b) / 10 == DigitsValue(fb);
      DigitsUnique(fa, fb);
      assert a == fa + [a[|a| - 1]] && b == fb + [b[|b| - 1]];
    } else if |a| > 1 {
      LeadingDigitBound(a);
    } else if |b| > 1 {
      LeadingDigitBound(b);
    }
  }

  /**
   * The properties `Label` promises fix the string: any string with the
   * label's sign rules, no leading zero and the right read-back value is
   * `Label(x)` itself.
   */
  lemma LabelIsUnique(x: int, s: string)
    requires |s| > 0
    requires s[0] == '+' <==> x > 0
    requires s[0] == '-' <==> x < 0
    requires x == 0 ==> s == "0"
    requires x != 0 ==> |s| >= 2 && s[1] != '0'
    requires ParseLabel(s) == Some(x)
    ensures s == Label(x)
  {
    if x != 0 {
      var n := if x < 0 then -x else x;
      var digits := NatText(n);
      assert s[1..][0] == s[1];
      DigitsUnique(s[1..], digits);
      assert s == s[..1] + s[1..];
    }
  }
}

=== FILE: ladder.dfy ===
/**
 * The rank ladder of app_test.py:42-62 (`update_rank_and_division`).
 *
 * The walk is modelled as the Python loop runs it: the division string is
 * looked up once, the rank string only when a rank advance is due, each
 * pass through the body subtracts 100 LP, and at Challenger with division
 * index 0 the body pins LP to 100, which keeps the loop guard true for ever.
 * `Climb` makes that divergence an explicit outcome; `Run`, the loop with a
 * bounded number of passes, is the reference it is proved against.
 *
 * Ranks and divisions are handled, as in the Python code, by their indices
 * in the two lists: index 0 of the divisions list is 'IV', and a promotion
 * within a rank moves the division index DOWN.
 */
module Ladder {
  import opened Wrappers

  /** The ranks list of app_test.py:43; index 0 is Iron. */
  const RankNames: seq<string> := ["Iron", "Bronze", "Silver", "Gold", "Platinum", "Diamond", "Master", "Grandmaster", "Challenger"]

  /** The divisions list of app_test.py:44; index 0 is 'IV', index 3 is 'I'. */
  const DivisionNames: seq<string> := ["IV", "III", "II", "I"]

  /** An index into the ranks list. */
  type RankIndex = i: nat | i < 9

  /** An index into the divisions list: a value of the loop's `division_index`. */
  type DivisionIndex = i: nat | i < 4

  /** Challenger, the last entry of the ranks list. */
  const Challenger: RankIndex := 8

  /** No name occurs twice in either list, so `list.index` finds every entry at its own index. */
  lemma NamesAreDistinct()
    ensures forall a, b :: 0 <= a < b < |RankNames| ==> RankNames[a] != RankNames[b]
    ensures forall a, b :: 0 <= a < b < |DivisionNames| ==> DivisionNames[a] != DivisionNames[b]
  {
  }

  /** Python's `list.index`: the first index holding `x`, or None where Python raises ValueError. */
  function IndexOf(xs: seq<string>, x: string): (r: Option<nat>)
    ensures r.Some? ==> r.value < |xs| && xs[r.value] == x
    ensures r.Some? ==> forall j :: 0 <= j < r.value ==> xs[j] != x
    ensures r.None? ==> forall j :: 0 <= j < |xs| ==> xs[j] != x
  {
    IndexFrom(xs, x, 0)
  }

  /** The scan behind `IndexOf`, from index `k` on. */
  function IndexFrom(xs: seq<string>, x: string, k: nat): (r: Option<nat>)
    requires k <= |xs|
    ensures r.Some? ==> k <= r.value < |xs| && xs[r.value] == x
    ensures r.Some? ==> forall j :: k <= j < r.value ==> xs[j] != x
    ensures r.None? ==> forall j :: k <= j < |xs| ==> xs[j] != x
    decreases |xs| - k
  {
    if k == |xs| then None
    else if xs[k] == x then Some(k)
    else IndexFrom(xs, x, k + 1)
  }

  /** `ranks.index(s)` at app_test.py:54. */
  function ParseRank(s: string): (r: Option<RankIndex>)
    ensures r.Some? ==> RankNames[r.value] == s
  {
    match IndexOf(RankNames, s)
    case None => None
    case Some(i) => Some(i)
  }

  /** `divisions.index(s)` at app_test.py:46. */
  function ParseDivision(s: string): (r: Option<DivisionIndex>)
    ensures r.Some? ==> DivisionNames[r.value] == s
  {
    match IndexOf(DivisionNames, s)
    case None => None
    case Some(i) => Some(i)
  }

  /** The rank lookup fails exactly on strings the ranks list does not hold. */
  lemma ParseRankFails(s: string)
    ensures ParseRank(s).None? <==> s !in RankNames
  {
    if s in RankNames {
      var j :| 0 <= j < |RankNames| && RankNames[j] == s;
    }
  }

  /** The division lookup fails exactly on strings the divisions list does not hold. */
  lemma ParseDivisionFails(s: string)
    ensures ParseDivision(s).None? <==> s !in DivisionNames
  {
    if s in DivisionNames {
      var j :| 0 <= j < |DivisionNames| && DivisionNames[j] == s;
    }
  }

  /** Every rank name is found again, at its own index. */
  lemma ParseRankName(i: RankIndex)
    ensures ParseRank(RankNames[i]) == Some(i)
  {
    NamesAreDistinct();
    var j := IndexOf(RankNames, RankNames[i]).value;
    assert j == i;
  }

  /** Every division name is found again, at its own index. */
  lemma ParseDivisionName(d: DivisionIndex)
    ensures ParseDivision(DivisionNames[d]) == Some(d)
  {
    NamesAreDistinct();
    var j := IndexOf(DivisionNames, DivisionNames[d]).value;
    assert j == d;
  }

  /** A (rank, division, LP) triple: a row of the players table and the ladder's return value. */
  datatype Standing = Standing(rank: string, division: string, lp: int)

  /**
   * The loop's `rank` variable. Python holds a string and looks it up at
   * each rank advance; the lookup's answer never changes for the same
   * string and every string the loop writes is a listed name, so the string
   * is held here already classified: an index into the ranks list, or the
   * unlisted text.
   */
  datatype RankText = Known(index: RankIndex) | Unknown(text: string) {
    function Text(): string {
      match this
      case Known(i) => RankNames[i]
      case Unknown(t) => t
    }
  }

  /** The classification of a rank string. */
  function Classify(s: string): (rt: RankText)
    ensures rt.Text() == s
    ensures rt.Known? <==> ParseRank(s).Some?
    ensures rt.Known? ==> rt.index == ParseRank(s).value
  {
    match ParseRank(s)
    case Some(i) => Known(i)
    case None => Unknown(s)
  }

  /** A classified rank name that the list holds is found again at its index. */
  lemma KnownRankName(rt: RankText)
    ensures rt.Known? ==> ParseRank(rt.Text()) == Some(rt.index)
  {
    if rt.Known? {
      ParseRankName(rt.index);
    }
  }

  /** The loop's locals at app_test.py:46-59: `rank`, `division_index` and `new_lp`. */
  datatype LoopState = LoopState(rank: RankText, division: DivisionIndex, lp: int)

  /** The ValueError raised by a failed `list.index` lookup. */
  datatype LadderError = UnknownRank(rank: string) | UnknownDivision(division: string)

  /** How a call of the ladder ends: it returns, it raises, or it never leaves the loop. */
  datatype Walk<+T> = Returns(value: T) | Raises(error: LadderError) | Diverges

  /** The one state in which the loop body cannot advance: Challenger at division index 0. */
  predicate AtCeiling(s: LoopState) {
    s.division == 0 && s.rank == Known(Challenger)
  }

  /**
   * Ladder position of a rung: 4 * rank index + (3 - division index).
   * Iron at index 3 ('I') is position 0; Challenger at index 0 ('IV') is `Top`.
   */
  function Position(i: RankIndex, d: DivisionIndex): nat {
    4 * i + (3 - d)
  }

  const Top: nat := 35

  /** The rank index at ladder position `p`. */
  function RankAt(p: nat): RankIndex
    requires p <= Top
  {
    p / 4
  }

  /** The division index at ladder position `p`. */
  function DivisionAt(p: nat): DivisionIndex
    requires p <= Top
  {
    3 - p % 4
  }

  /** Positions name rungs one to one, in both directions. */
  lemma PositionRoundTrip(i: RankIndex, d: DivisionIndex, q: nat)
    requires q <= Top
    ensures Position(i, d) <= Top
    ensures RankAt(Position(i, d)) == i && DivisionAt(Position(i, d)) == d
    ensures Position(RankAt(q), DivisionAt(q)) == q
  {
  }

  /**
   * One pass through the loop body, app_test.py:50-59. Away from the ceiling
   * it spends 100 LP (`StepAt`: one position up from a known rung); at the
   * ceiling it sets LP to 100 and stays; an unknown rank raises only when
   * division index 0 makes a rank advance due.
   */
  function Iteration(s: LoopState): (r: Result<LoopState, LadderError>)
    ensures r.Err? <==> s.division == 0 && s.rank.Unknown?
    ensures r.Err? ==> r.error == UnknownRank(s.rank.text)
    ensures AtCeiling(s) ==> r == Ok(LoopState(s.rank, 0, 100))
    ensures r.Ok? && !AtCeiling(s) ==> r.value.lp == s.lp - 100
    ensures r.Ok? && s.rank.Unknown? ==> r.value.rank == s.rank && r.value.division == s.division - 1
  {
    var lp := s.lp - 100;
    if s.division > 0 then
      Ok(LoopState(s.rank, s.division - 1, lp))
    else
      match s.rank
      case Unknown(t) => Err(UnknownRank(t))
      case Known(i) =>
        if i < |RankNames| - 1 then Ok(LoopState(Known(i + 1), 3, lp))
        else Ok(LoopState(s.rank, s.division, 100))
  }

  /** How many passes the loop makes from LP `lp` when nothing stops it early. */
  function Chunks(lp: int): nat
    decreases if lp < 0 then 0 else lp
  {
    if lp < 100 then 0 else 1 + Chunks(lp - 100)
  }

  /** The LP left after those passes. */
  function Remainder(lp: int): int
    decreases if lp < 0 then 0 else lp
  {
    if lp < 100 then lp else Remainder(lp - 100)
  }

  /** One pass spends one chunk of LP and leaves the remainder alone. */
  lemma ChunkStep(lp: int)
    requires lp >= 100
    ensures Chunks(lp) == 1 + Chunks(lp - 100) && Remainder(lp) == Remainder(lp - 100)
  {
  }

  /** From 100 LP up, the passes are floor(lp / 100) and the remainder is lp mod 100. */
  lemma {:induction false} ChunksAreDivision(lp: int)
    ensures lp >= 100 ==> Chunks(lp) == lp / 100 && Remainder(lp) == lp % 100
    ensures lp < 100 ==> Chunks(lp) == 0 && Remainder(lp) == lp
    decreases if lp < 0 then 0 else lp
  {
    if lp >= 200 {
      ChunksAreDivision(lp - 100);
    }
  }

  /**
   * The loop `while new_lp >= 100` run to its end. Returns when the guard fails,
   * raises when a rank lookup fails, and Diverges on reaching the ceiling with
   * the guard true, from where the body never lets the guard fail
   * (`DivergesLoopsForever`).
   */
  function Climb(s: LoopState): (w: Walk<LoopState>)
    ensures s.lp < 100 ==> w == Returns(s)
    ensures w.Returns? ==> w.value.lp < 100
    decreases s.lp
  {
    if s.lp < 100 then Returns(s)
    else if AtCeiling(s) then Diverges
    else
      match Iteration(s)
      case Err(e) => Raises(e)
      case Ok(t) => Climb(t)
  }

  /**
   * A returned walk keeps exactly the remainder of the LP after its passes,
   * and only a rank name the lookup does not know can make it raise.
   */
  lemma {:induction false} ClimbOutcome(s: LoopState)
    ensures Climb(s).Returns? ==> Climb(s).value.lp == Remainder(s.lp)
    ensures Climb(s).Raises? ==> s.rank.Unknown? && Climb(s).error == UnknownRank(s.rank.text)
    decreases s.lp
  {
    if s.lp >= 100 && !AtCeiling(s) && Iteration(s).Ok? {
      ClimbOutcome(Iteration(s).value);
    }
  }

  /** What a run of the loop has reached after a bounded number of passes. */
  datatype Execution = Exited(final: LoopState) | Crashed(error: LadderError) | StillLooping

  /**
   * The loop executed literally for at most `fuel` passes of the body. An
   * exit leaves LP below 100, and a crash can only come from a rank name the
   * ranks list does not hold, reported by that name.
   */
  function Run(s: LoopState, fuel: nat): (e: Execution)
    ensures s.lp < 100 ==> e == Exited(s)
    ensures e.Exited? ==> e.final.lp < 100
    ensures e.Crashed? ==> s.rank.Unknown? && e.error == UnknownRank(s.rank.text)
    decreases fuel
  {
    if s.lp < 100 then Exited(s)
    else if fuel == 0 then StillLooping
    else
      match Iteration(s)
      case Err(e) => Crashed(e)
      case Ok(t) => Run(t, fuel - 1)
  }

  /** Where `Climb` reports divergence, no number of passes of the body ever exits the loop. */
  lemma {:induction false} DivergesLoopsForever(s: LoopState, fuel: nat)
    requires Climb(s).Diverges?
    ensures Run(s, fuel) == StillLooping
    decreases fuel
  {
    if fuel > 0 {
      var t := Iteration(s).value;
      if AtCeiling(s) {
        assert t == LoopState(s.rank, 0, 100);
        assert AtCeiling(t);
      }
      DivergesLoopsForever(t, fuel - 1);
    }
  }

  /** Where `Climb` returns or raises, the literal loop does the same within `Chunks` passes. */
  lemma {:induction false} ClimbAgreesWithRun(s: LoopState, fuel: nat)
    requires !Climb(s).Diverges?
    requires fuel >= Chunks(s.lp)
    ensures Climb(s).Returns? ==> Run(s, fuel) == Exited(Climb(s).value)
    ensures Climb(s).Raises? ==> Run(s, fuel) == Crashed(Climb(s).error)
    decreases s.lp
  {
    if s.lp >= 100 {
      match Iteration(s)
      case Err(e) =>
      case Ok(t) =>
        ClimbAgreesWithRun(t, fuel - 1);
    }
  }

  /** `Climb` diverges exactly when the literal loop never exits, however many passes it is given. */
  lemma LoopExitsIff(s: LoopState)
    ensures Climb(s).Diverges? <==> forall fuel: nat :: Run(s, fuel).StillLooping?
  {
    if Climb(s).Diverges? {
      forall fuel: nat
        ensures Run(s, fuel).StillLooping?
      {
        DivergesLoopsForever(s, fuel);
      }
    } else {
      ClimbAgreesWithRun(s, Chunks(s.lp));
    }
  }

  /** The loop state on the rung at position `q` holding `lp`. */
  function RungState(q: nat, lp: int): LoopState
    requires q <= Top
  {
    LoopState(Known(RankAt(q)), DivisionAt(q), lp)
  }

  /** The walk's outcome when its target position is `q` and `rem` LP are left: beyond the ceiling it diverges. */
  function Target(q: nat, rem: int): Walk<LoopState> {
    if q <= Top then Returns(RungState(q, rem)) else Diverges
  }

  /** Below the ceiling one pass of the body moves from position `q` to `q + 1`. */
  lemma StepAt(q: nat, lp: int)
    requires q < Top
    ensures !AtCeiling(RungState(q, lp))
    ensures Iteration(RungState(q, lp)) == Ok(RungState(q + 1, lp - 100))
  {
  }

  /** Away from the ceiling, a walk with a pass to make continues from the state that pass leaves. */
  lemma ClimbPasses(s: LoopState)
    requires s.lp >= 100 && !AtCeiling(s) && Iteration(s).Ok?
    ensures Climb(s) == Climb(Iteration(s).value)
  {
  }

  /** The closed form below the ceiling follows from the closed form one pass later. */
  lemma ClosedFormAfterPass(q: nat, lp: int)
    requires q < Top && lp >= 100
    requires Climb(RungState(q + 1, lp - 100)) == Target(q + 1 + Chunks(lp - 100), Remainder(lp - 100))
    ensures Climb(RungState(q, lp)) == Target(q + Chunks(lp), Remainder(lp))
  {
    StepAt(q, lp);
    ClimbPasses(RungState(q, lp));
    ChunkStep(lp);
  }

  /** The walk from position `q` ends `Chunks(lp)` positions higher, or diverges past the ceiling. */
  lemma {:induction false} ClimbFromPosition(q: nat, lp: int)
    requires q <= Top
    ensures Climb(RungState(q, lp)) == Target(q + Chunks(lp), Remainder(lp))
    decreases if lp < 0 then 0 else lp
  {
    if lp >= 100 {
      if q < Top {
        ClimbFromPosition(q + 1, lp - 100);
        ClosedFormAfterPass(q, lp);
      } else {
        assert AtCeiling(RungState(q, lp));
      }
    }
  }

  /**
   * Closed form of the walk from a known rung: it ends `Chunks(lp)` positions
   * higher with the remainder of `lp`, unless that target lies beyond the
   * ceiling, in which case it diverges.
   */
  lemma ClimbFromKnownRung(i: RankIndex, d: DivisionIndex, lp: int)
    ensures Climb(LoopState(Known(i), d, lp)) == Target(Position(i, d) + Chunks(lp), Remainder(lp))
  {
    RungOfPosition(i, d, lp);
    ClimbFromPosition(Position(i, d), lp);
  }

  /** The rung at a rung's own position is that rung. */
  lemma RungOfPosition(i: RankIndex, d: DivisionIndex, lp: int)
    ensures Position(i, d) <= Top && RungState(Position(i, d), lp) == LoopState(Known(i), d, lp)
  {
    PositionRoundTrip(i, d, 0);
  }

  /** The walk from a known rung ends iff `Position + floor(lp / 100)` is no higher than the ceiling. */
  lemma ClimbTerminatesIff(i: RankIndex, d: DivisionIndex, lp: int)
    ensures !Climb(LoopState(Known(i), d, lp)).Diverges? <==> Position(i, d) + lp / 100 <= Top
  {
    ClimbFromKnownRung(i, d, lp);
    ChunksAreDivision(lp);
  }

  /**
   * From a rank name the lookup does not know, the walk raises exactly when it
   * has to advance the rank, i.e. when LP covers the passes down to index 0 and
   * one more; otherwise it only steps the division index down.
   */
  lemma {:induction false} ClimbFromUnknownRank(rank: string, d: DivisionIndex, lp: int)
    ensures Climb(LoopState(Unknown(rank), d, lp)) ==
      if Chunks(lp) > d then Raises(UnknownRank(rank))
      else Returns(LoopState(Unknown(rank), d - Chunks(lp), Remainder(lp)))
    decreases if lp < 0 then 0 else lp
  {
    if lp >= 100 && d > 0 {
      ClimbFromUnknownRank(rank, d - 1, lp - 100);
    }
  }

  /**
   * The value `update_rank_and_division` returns from the loop's final locals
   * (app_test.py:61-62): the division name at the final index, the rank name
   * at the final rank index, or an unlisted rank name unchanged. An error and
   * divergence pass through unchanged.
   */
  function Finish(w: Walk<LoopState>): (r: Walk<Standing>)
    ensures r.Returns? <==> w.Returns?
    ensures r.Diverges? <==> w.Diverges?
    ensures r.Raises? ==> w.Raises? && r.error == w.error
    ensures r.Returns? ==> r.value.lp == w.value.lp && ParseDivision(r.value.division) == Some(w.value.division)
    ensures r.Returns? && w.value.rank.Known? ==> ParseRank(r.value.rank) == Some(w.value.rank.index)
    ensures r.Returns? && w.value.rank.Unknown? ==> r.value.rank == w.value.rank.text
  {
    match w
    case Returns(s) =>
      ParseDivisionName(s.division);
      KnownRankName(s.rank);
      Returns(Standing(s.rank.Text(), DivisionNames[s.division], s.lp))
    case Raises(e) => Raises(e)
    case Diverges => Diverges
  }

  /**
   * The loop of app_test.py:48-62 entered with the rank already classified,
   * division index `d` and LP `lp`: the walk's outcome as a standing.
   */
  function LadderFrom(rank: RankText, d: DivisionIndex, lp: int): (w: Walk<Standing>)
    ensures lp < 100 ==> w == Returns(Standing(rank.Text(), DivisionNames[d], lp))
    ensures w.Returns? ==> w.value.lp < 100 && w.value.lp == Remainder(lp)
    ensures w.Raises? ==> rank.Unknown? && w.error == UnknownRank(rank.Text())
  {
    var s := LoopState(rank, d, lp);
    ClimbOutcome(s);
    Finish(Climb(s))
  }

  /**
   * `update_rank_and_division(rank, division, lp_change)`, app_test.py:42-62.
   * An unknown division always raises; LP below 100 (negative included)
   * comes back unchanged with the same rank and division; a returned LP is
   * always below 100, and from 100 up it is the input mod 100.
   */
  function UpdateRankAndDivision(rank: string, division: string, lp: int): (w: Walk<Standing>)
    ensures ParseDivision(division).None? <==> w == Raises(UnknownDivision(division))
    ensures ParseDivision(division).Some? && lp < 100 ==> w == Returns(Standing(rank, division, lp))
    ensures w.Returns? ==> w.value.lp < 100
    ensures w.Returns? && lp >= 100 ==> w.value.lp == lp % 100
    ensures ParseDivision(division).Some? && w.Raises? ==> w.error == UnknownRank(rank)
  {
    ChunksAreDivision(lp);
    match ParseDivision(division)
    case None => Raises(UnknownDivision(division))
    case Some(d) => LadderFrom(Classify(rank), d, lp)
  }

  /** Past the division lookup, only a rank name the ranks list does not hold makes the ladder raise. */
  lemma UpdateRaisesOnlyOnUnknownRank(rank: string, division: string, lp: int)
    requires ParseDivision(division).Some?
    ensures UpdateRankAndDivision(rank, division, lp).Raises? ==> ParseRank(rank).None?
  {
  }

  /**
   * From a listed rank and division name the ladder runs the walk from that
   * rung; by `ClimbFromKnownRung` that walk never raises, ends `Chunks(lp)`
   * positions higher with the LP that remains, or diverges when that target
   * lies beyond Challenger 'IV'.
   */
  lemma UpdateFromKnownRung(i: RankIndex, d: DivisionIndex, lp: int)
    ensures UpdateRankAndDivision(RankNames[i], DivisionNames[d], lp) == Finish(Climb(LoopState(Known(i), d, lp)))
  {
    ParseDivisionName(d);
    ParseRankName(i);
  }

  /** From a known rung the ladder returns iff `Position + floor(lp / 100)` is no higher than Challenger 'IV'. */
  lemma UpdateTerminatesIff(i: RankIndex, d: DivisionIndex, lp: int)
    ensures !UpdateRankAndDivision(RankNames[i], DivisionNames[d], lp).Diverges? <==> Position(i, d) + lp / 100 <= Top
  {
    UpdateFromKnownRung(i, d, lp);
    ClimbTerminatesIff(i, d, lp);
  }

  /**
   * With a known division but an unknown rank name, the ladder raises iff it
   * must advance the rank (LP of at least 100 * (division index + 1));
   * otherwise it returns the unknown rank name untouched.
   */
  lemma UpdateFromUnknownRank(rank: string, d: DivisionIndex, lp: int)
    requires ParseRank(rank).None?
    ensures UpdateRankAndDivision(rank, DivisionNames[d], lp).Raises? <==> lp >= 100 * (d + 1)
    ensures UpdateRankAndDivision(rank, DivisionNames[d], lp).Returns? ==>
      UpdateRankAndDivision(rank, DivisionNames[d], lp).value.rank == rank
  {
    ParseDivisionName(d);
    ClimbFromUnknownRank(rank, d, lp);
    ChunksAreDivision(lp);
  }

  /** Within a rank the division index falls, so a promotion from 'IV' advances the rank and lands on 'I'. */
  lemma IronIvPromotesToBronzeI()
    ensures UpdateRankAndDivision("Iron", "IV", 150) == Returns(Standing("Bronze", "I", 50))
  {
    UpdateFromKnownRung(0, 0, 150);
    ClimbFromKnownRung(0, 0, 150);
    assert Chunks(150) == 1 && Remainder(150) == 50;
  }

  /** From 'I' a promotion moves to 'II' in the same rank. */
  lemma IronIPromotesToIronIi()
    ensures UpdateRankAndDivision("Iron", "I", 120) == Returns(Standing("Iron", "II", 20))
  {
    UpdateFromKnownRung(0, 3, 120);
    ClimbFromKnownRung(0, 3, 120);
    assert Chunks(120) == 1 && Remainder(120) == 20;
  }

  /** Challenger 'I' is not the ceiling: 150 LP moves it to Challenger 'II' with 50. */
  lemma ChallengerIPromotes()
    ensures UpdateRankAndDivision("Challenger", "I", 150) == Returns(Standing("Challenger", "II", 50))
  {
    UpdateFromKnownRung(Challenger, 3, 150);
    ClimbFromKnownRung(Challenger, 3, 150);
    assert Chunks(150) == 1 && Remainder(150) == 50;
  }

  /** Challenger 'IV' with 100 LP never returns. */
  lemma ChallengerIvDiverges()
    ensures UpdateRankAndDivision("Challenger", "IV", 100) == Diverges
  {
    UpdateFromKnownRung(Challenger, 0, 100);
    ClimbFromKnownRung(Challenger, 0, 100);
    assert Chunks(100) == 1;
  }
}

=== FILE: leaderboard.dfy ===
/**
 * `generate_leaderboard`, app_test.py:104-141: a left outer join of players
 * with their log rows, grouped per player, followed by the "LP Gained/Lost"
 * label, pandas' `rank(method='first', ascending=False)` on the total, and a
 * sort by that position.
 *
 * The order in which SQLite hands the grouped rows to pandas (after its
 * `ORDER BY total_lp_change DESC`, whose tie order it does not fix) is the
 * parameter `order`: the registered names, each once.
 */
module Leaderboard {
  import opened Wrappers
  import opened Ladder
  import opened Registry
  import Decimal

  /**
   * A log row's term in `total_lp_change` (app_test.py:114-116): for 'Win'
   * and 'Lose' the very change `log_match` applied, for any other result 0
   * (where `log_match` subtracted).
   */
  function Signed(row: LogRow): (v: int)
    ensures row.result == "Win" || row.result == "Lose" ==> v == MatchLp(0, row.result, row.lpChange)
    ensures row.result != "Win" && row.result != "Lose" ==> v == 0
  {
    if row.result == "Win" then row.lpChange
    else if row.result == "Lose" then -row.lpChange
    else 0
  }

  /** `COALESCE(SUM(...), 0)` over the player's log rows: 0 for a player without rows. */
  function TotalChange(logs: seq<LogRow>, name: string): (total: int)
    ensures (forall i :: 0 <= i < |logs| ==> logs[i].player != name) ==> total == 0
    decreases |logs|
  {
    if |logs| == 0 then 0
    else TotalChange(logs[..|logs| - 1], name) + (if logs[|logs| - 1].player == name then Signed(logs[|logs| - 1]) else 0)
  }

  /** `COUNT(l.id)` over the player's log rows: at most all rows, and 0 exactly for a player without rows. */
  function GamesPlayed(logs: seq<LogRow>, name: string): (games: nat)
    ensures games <= |logs|
    ensures games == 0 <==> forall i :: 0 <= i < |logs| ==> logs[i].player != name
    decreases |logs|
  {
    if |logs| == 0 then 0
    else GamesPlayed(logs[..|logs| - 1], name) + (if logs[|logs| - 1].player == name then 1 else 0)
  }

  /** The total adds up over any split of the logs, so it does not depend on where a row sits. */
  lemma {:induction false} TotalChangeAppend(a: seq<LogRow>, b: seq<LogRow>, name: string)
    ensures TotalChange(a + b, name) == TotalChange(a, name) + TotalChange(b, name)
    decreases |b|
  {
    if |b| == 0 {
      assert a + b == a;
    } else {
      var c := a + b;
      var front, last := b[..|b| - 1], b[|b| - 1];
      assert c[..|c| - 1] == a + front && c[|c| - 1] == last;
      var step := if last.player == name then Signed(last) else 0;
      assert TotalChange(c, name) == TotalChange(a + front, name) + step;
      assert TotalChange(b, name) == TotalChange(front, name) + step;
      TotalChangeAppend(a, front, name);
    }
  }

  /** The game count adds up over any split of the logs. */
  lemma {:induction false} GamesPlayedAppend(a: seq<LogRow>, b: seq<LogRow>, name: string)
    ensures GamesPlayed(a + b, name) == GamesPlayed(a, name) + GamesPlayed(b, name)
    decreases |b|
  {
    if |b| == 0 {
      assert a + b == a;
    } else {
      var c := a + b;
      var front, last := b[..|b| - 1], b[|b| - 1];
      assert c[..|c| - 1] == a + front && c[|c| - 1] == last;
      var step := if last.player == name then 1 else 0;
      assert GamesPlayed(c, name) == GamesPlayed(a + front, name) + step;
      assert GamesPlayed(b, name) == GamesPlayed(front, name) + step;
      GamesPlayedAppend(a, front, name);
    }
  }

  /**
   * A logged match moves its own player's aggregates by one game and by the
   * signed magnitude, and leaves every other player's aggregates alone.
   */
  lemma LogMatchMovesAggregates(db: Db, name: string, result: string, lpChange: Option<int>, other: string)
    requires LogMatch(db, name, result, lpChange).status == Logged
    ensures var logs := LogMatch(db, name, result, lpChange).db.logs;
      var m := lpChange.GetOr(0);
      && GamesPlayed(logs, name) == GamesPlayed(db.logs, name) + 1
      && TotalChange(logs, name) == TotalChange(db.logs, name) + (if result == "Win" then m else if result == "Lose" then -m else 0)
      && (other != name ==> GamesPlayed(logs, other) == GamesPlayed(db.logs, other))
      && (other != name ==> TotalChange(logs, other) == TotalChange(db.logs, other))
  {
    var logs := LogMatch(db, name, result, lpChange).db.logs;
    assert logs[..|logs| - 1] == db.logs;
  }

  /** `order` lists the names of `names`, each exactly once. */
  predicate Enumerates(order: seq<string>, names: set<string>) {
    && (forall a, b :: 0 <= a < b < |order| ==> order[a] != order[b])
    && (forall k :: 0 <= k < |order| ==> order[k] in names)
    && (forall n :: n in names ==> n in order)
  }

  /** The position of `name` in `order`: `Ladder.IndexOf` for a name known to occur. */
  function IndexIn(order: seq<string>, name: string): (i: nat)
    requires name in order
    ensures i < |order| && order[i] == name
    ensures forall j :: 0 <= j < i ==> order[j] != name
  {
    IndexOf(order, name).value
  }

  /** The totals of the grouped rows, in `order`. */
  function Totals(db: Db, order: seq<string>): seq<int> {
    seq(|order|, i requires 0 <= i < |order| => TotalChange(db.logs, order[i]))
  }

  /** Row `j` comes before row `i` in `rank(method='first', ascending=False)`: a larger total, or an equal one met earlier. */
  predicate Outranks(t: seq<int>, j: nat, i: nat)
    requires j < |t| && i < |t|
  {
    t[j] > t[i] || (t[j] == t[i] && j < i)
  }

  /** How many of the rows 0..n-1 outrank row `i`. */
  function CountOutranking(t: seq<int>, i: nat, n: nat): nat
    requires i < |t| && n <= |t|
  {
    if n == 0 then 0 else CountOutranking(t, i, n - 1) + (if Outranks(t, n - 1, i) then 1 else 0)
  }

  /** pandas `rank(method='first', ascending=False)` of row `i` (app_test.py:137): one more than the rows outranking it. */
  function FirstRank(t: seq<int>, i: nat): (r: nat)
    requires i < |t|
    ensures 1 <= r <= |t|
  {
    CountBound(t, i, |t|);
    1 + CountOutranking(t, i, |t|)
  }

  /** The 'Rank' column. */
  function Positions(t: seq<int>): (p: seq<nat>)
    ensures |p| == |t|
    ensures forall i :: 0 <= i < |t| ==> p[i] == FirstRank(t, i)
  {
    seq(|t|, i requires 0 <= i < |t| => FirstRank(t, i))
  }

  lemma {:induction false} CountBound(t: seq<int>, i: nat, n: nat)
    requires i < |t| && n <= |t|
    ensures CountOutranking(t, i, n) <= if i < n then n - 1 else n
    decreases n
  {
    if n > 0 {
      CountBound(t, i, n - 1);
    }
  }

  /** Whoever outranks `j` outranks `i` too when `j` outranks `i`, so `i` has strictly more rows above it. */
  lemma {:induction false} CountMonotone(t: seq<int>, i: nat, j: nat, n: nat)
    requires i < |t| && j < |t| && n <= |t|
    requires Outranks(t, j, i)
    ensures CountOutranking(t, j, n) + (if j < n then 1 else 0) <= CountOutranking(t, i, n)
    decreases n
  {
    if n > 0 {
      CountMonotone(t, i, j, n - 1);
    }
  }

  /** Of two distinct rows, the one that outranks the other has the smaller position, and only that one. */
  lemma FirstRankOrder(t: seq<int>, i: nat, j: nat)
    requires i < |t| && j < |t| && i != j
    ensures FirstRank(t, j) < FirstRank(t, i) <==> Outranks(t, j, i)
  {
    if Outranks(t, j, i) {
      CountMonotone(t, i, j, |t|);
    } else {
      CountMonotone(t, j, i, |t|);
    }
  }

  /** Positions are pairwise distinct and lie in 1..n: together, a permutation of 1..n. */
  lemma PositionsArePermutation(t: seq<int>)
    ensures forall i :: 0 <= i < |t| ==> 1 <= FirstRank(t, i) <= |t|
    ensures forall i, j :: 0 <= i < |t| && 0 <= j < |t| && i != j ==> FirstRank(t, i) != FirstRank(t, j)
    ensures forall i, j :: 0 <= i < |t| && 0 <= j < |t| && i != j ==> (FirstRank(t, j) < FirstRank(t, i) <==> Outranks(t, j, i))
  {
    forall i, j | 0 <= i < |t| && 0 <= j < |t| && i != j
      ensures FirstRank(t, j) < FirstRank(t, i) <==> Outranks(t, j, i)
    {
      FirstRankOrder(t, i, j);
    }
  }

  /** When the rows already arrive by non-increasing total, as SQL's ORDER BY delivers them, each row keeps its place. */
  lemma {:induction false} SortedInputKeepsOrder(t: seq<int>, i: nat)
    requires forall a, b :: 0 <= a < b < |t| ==> t[a] >= t[b]
    requires i < |t|
    ensures FirstRank(t, i) == i + 1
  {
    CountOnSorted(t, i, |t|);
  }

  lemma {:induction false} CountOnSorted(t: seq<int>, i: nat, n: nat)
    requires forall a, b :: 0 <= a < b < |t| ==> t[a] >= t[b]
    requires i < |t| && n <= |t|
    ensures CountOutranking(t, i, n) == if n < i then n else i
    decreases n
  {
    if n > 0 {
      CountOnSorted(t, i, n - 1);
    }
  }

  /** `s` lists indices into `key`. */
  predicate IndicesOf(s: seq<nat>, key: seq<nat>) {
    forall k :: 0 <= k < |s| ==> s[k] < |key|
  }

  predicate StrictlyAscendingBy(s: seq<nat>, key: seq<nat>)
    requires IndicesOf(s, key)
  {
    forall a, b :: 0 <= a < b < |s| ==> key[s[a]] < key[s[b]]
  }

  /** Inserts `x` before the first element with a larger key. */
  function InsertBy(x: nat, s: seq<nat>, key: seq<nat>): (r: seq<nat>)
    requires x < |key| && IndicesOf(s, key)
    requires StrictlyAscendingBy(s, key)
    requires forall k :: 0 <= k < |s| ==> key[s[k]] != key[x]
    ensures |r| == |s| + 1
    ensures multiset(r) == multiset(s) + multiset{x}
    ensures IndicesOf(r, key)
    ensures StrictlyAscendingBy(r, key)
    decreases |s|
  {
    if |s| == 0 || key[x] < key[s[0]] then
      [x] + s
    else
      var rest := InsertBy(x, s[1..], key);
      InsertBehind(x, s, key, rest);
      [s[0]] + rest
  }

  /** Putting the head of `s` in front of `x` inserted into the tail keeps the keys strictly ascending. */
  lemma InsertBehind(x: nat, s: seq<nat>, key: seq<nat>, rest: seq<nat>)
    requires |s| > 0 && x < |key| && IndicesOf(s, key) && IndicesOf(rest, key)
    requires StrictlyAscendingBy(s, key) && StrictlyAscendingBy(rest, key)
    requires key[s[0]] < key[x]
    requires multiset(rest) == multiset(s[1..]) + multiset{x}
    ensures multiset([s[0]] + rest) == multiset(s) + multiset{x}
    ensures StrictlyAscendingBy([s[0]] + rest, key)
  {
    assert s == [s[0]] + s[1..];
    forall k | 0 <= k < |rest| ensures key[s[0]] < key[rest[k]] {
      assert rest[k] in multiset(rest);
      if rest[k] != x {
        assert rest[k] in s[1..];
        var j :| 0 <= j < |s[1..]| && s[1..][j] == rest[k];
        assert s[j + 1] == rest[k];
      }
    }
    var r := [s[0]] + rest;
    forall a, b | 0 <= a < b < |r| ensures key[r[a]] < key[r[b]] {
      if a > 0 {
        assert r[a] == rest[a - 1] && r[b] == rest[b - 1];
      } else {
        assert r[b] == rest[b - 1];
      }
    }
  }

  /** `sort_values(by='Rank')` (app_test.py:140) on indices whose keys are pairwise distinct. */
  function SortBy(xs: seq<nat>, key: seq<nat>): (r: seq<nat>)
    requires IndicesOf(xs, key)
    requires forall a, b :: 0 <= a < b < |xs| ==> key[xs[a]] != key[xs[b]]
    ensures |r| == |xs|
    ensures multiset(r) == multiset(xs)
    ensures IndicesOf(r, key)
    ensures StrictlyAscendingBy(r, key)
    decreases |xs|
  {
    if |xs| == 0 then []
    else
      var rest := SortBy(xs[1..], key);
      HeadKeyIsFresh(xs, key, rest);
      InsertBy(xs[0], rest, key)
  }

  /** The head of `xs` has a key no element of a rearranged tail has, and the head plus the tail make up `xs`. */
  lemma HeadKeyIsFresh(xs: seq<nat>, key: seq<nat>, rest: seq<nat>)
    requires |xs| > 0 && IndicesOf(xs, key)
    requires forall a, b :: 0 <= a < b < |xs| ==> key[xs[a]] != key[xs[b]]
    requires multiset(rest) == multiset(xs[1..])
    ensures forall k :: 0 <= k < |rest| ==> rest[k] < |key| && key[rest[k]] != key[xs[0]]
    ensures multiset(xs) == multiset(rest) + multiset{xs[0]}
  {
    forall k | 0 <= k < |rest| ensures rest[k] < |key| && key[rest[k]] != key[xs[0]] {
      assert rest[k] in multiset(xs[1..]);
      var j :| 1 <= j < |xs| && xs[j] == rest[k];
    }
    assert xs == [xs[0]] + xs[1..];
  }

  /** A strictly increasing run of n integers between 1 and n is exactly 1, 2, ..., n. */
  lemma ConsecutiveRun(v: seq<int>)
    requires forall a, b :: 0 <= a < b < |v| ==> v[a] < v[b]
    requires forall k :: 0 <= k < |v| ==> 1 <= v[k] <= |v|
    ensures forall k :: 0 <= k < |v| ==> v[k] == k + 1
  {
    forall k | 0 <= k < |v| ensures v[k] == k + 1 {
      Spread(v, 0, k);
      Spread(v, k, |v| - 1);
    }
  }

  lemma {:induction false} Spread(v: seq<int>, a: nat, b: nat)
    requires forall x, y :: 0 <= x < y < |v| ==> v[x] < v[y]
    requires a <= b < |v|
    ensures v[b] - v[a] >= b - a
    decreases b - a
  {
    if a < b {
      Spread(v, a, b - 1);
    }
  }

  /**
   * The row indices in the order the sorted leaderboard shows them: the row
   * at place k has position k + 1, every row appears, and each row outranks
   * every row after it.
   */
  function RankedOrder(t: seq<int>): (o: seq<nat>)
    ensures RanksAlong(t, o)
  {
    var key := Positions(t);
    var xs := seq(|t|, i => i);
    PositionsArePermutation(t);
    var o := SortBy(xs, key);
    RankedOrderFacts(t, xs, o);
    o
  }

  /**
   * `o` lists the row indices of `t` in leaderboard order: the row at place k
   * has 'first' rank k + 1, every row appears, and each row outranks every
   * row after it.
   */
  predicate RanksAlong(t: seq<int>, o: seq<nat>) {
    && |o| == |t|
    && (forall k :: 0 <= k < |o| ==> o[k] < |t| && FirstRank(t, o[k]) == k + 1)
    && (forall i :: 0 <= i < |t| ==> i in o)
    && (forall a, b :: 0 <= a < b < |o| ==> Outranks(t, o[a], o[b]))
  }

  lemma RankedOrderFacts(t: seq<int>, xs: seq<nat>, o: seq<nat>)
    requires xs == seq(|t|, i => i)
    requires |o| == |t| && multiset(o) == multiset(xs)
    requires IndicesOf(o, Positions(t)) && StrictlyAscendingBy(o, Positions(t))
    ensures RanksAlong(t, o)
  {
    PositionsArePermutation(t);
    var key := Positions(t);
    var v := seq(|o|, k requires 0 <= k < |o| => key[o[k]] as int);
    assert forall k :: 0 <= k < |v| ==> v[k] == FirstRank(t, o[k]);
    ConsecutiveRun(v);
    forall k | 0 <= k < |o| ensures FirstRank(t, o[k]) == k + 1 {
      assert v[k] == k + 1;
    }
    forall i | 0 <= i < |t| ensures i in o {
      assert xs[i] == i;
      assert i in multiset(xs);
    }
    forall a, b | 0 <= a < b < |o| ensures Outranks(t, o[a], o[b]) {
      assert v[a] < v[b];
    }
  }

  /** A row of the returned leaderboard: the columns selected at app_test.py:140. */
  datatype Entry = Entry(player: string, lpGainedLost: string, games: nat, currentLp: int, rank: string, division: string, position: nat)

  /** The grouped row of player `name`, given its position. */
  function EntryOf(db: Db, name: string, position: nat): Entry
    requires name in db.players
  {
    var s := db.players[name];
    Entry(name, Decimal.Label(TotalChange(db.logs, name)), GamesPlayed(db.logs, name), s.lp, s.rank, s.division, position)
  }

  /** Exactly one row per registered player. */
  predicate OneRowPerPlayer(db: Db, rows: seq<Entry>) {
    && (forall k :: 0 <= k < |rows| ==> rows[k].player in db.players)
    && (forall n :: n in db.players ==> exists k :: 0 <= k < |rows| && rows[k].player == n)
    && (forall a, b :: 0 <= a < b < |rows| ==> rows[a].player != rows[b].player)
  }

  /** Each row carries its player's standing, game count and the label of the player's total, which reads back as that total. */
  predicate RowsCarryAggregates(db: Db, rows: seq<Entry>)
    requires forall k :: 0 <= k < |rows| ==> rows[k].player in db.players
  {
    forall k :: 0 <= k < |rows| ==>
      && rows[k].games == GamesPlayed(db.logs, rows[k].player)
      && rows[k].lpGainedLost == Decimal.Label(TotalChange(db.logs, rows[k].player))
      && Decimal.ParseLabel(rows[k].lpGainedLost) == Some(TotalChange(db.logs, rows[k].player))
      && db.players[rows[k].player] == Standing(rows[k].rank, rows[k].division, rows[k].currentLp)
  }

  /** Row k has position k + 1, and that is the pandas 'first' rank of its player among the rows as delivered. */
  predicate PositionsAreFirstRanks(db: Db, order: seq<string>, rows: seq<Entry>)
    requires forall k :: 0 <= k < |rows| ==> rows[k].player in order
  {
    forall k :: 0 <= k < |rows| ==>
      rows[k].position == k + 1 && rows[k].position == FirstRank(Totals(db, order), IndexIn(order, rows[k].player))
  }

  /** Along the rows totals never rise, and equal totals keep the order of delivery. */
  predicate OrderedByTotal(db: Db, order: seq<string>, rows: seq<Entry>)
    requires forall k :: 0 <= k < |rows| ==> rows[k].player in order
  {
    forall a, b :: 0 <= a < b < |rows| ==>
      var ta, tb := TotalChange(db.logs, rows[a].player), TotalChange(db.logs, rows[b].player);
      ta > tb || (ta == tb && IndexIn(order, rows[a].player) < IndexIn(order, rows[b].player))
  }

  /**
   * `generate_leaderboard`: one row per registered player (log rows of other
   * names play no part), carrying the player's standing, game count and
   * labelled total; row k has position k + 1, which is the pandas 'first'
   * rank of that player; along the rows the totals never rise and equal
   * totals keep the order in which the rows arrived. No players, no rows.
   */
  function Leaderboard(db: Db, order: seq<string>): (rows: seq<Entry>)
    requires Enumerates(order, db.players.Keys)
    ensures |rows| == |order|
    ensures OneRowPerPlayer(db, rows)
    ensures RowsCarryAggregates(db, rows)
    ensures forall k :: 0 <= k < |rows| ==> rows[k].player in order
    ensures PositionsAreFirstRanks(db, order, rows)
    ensures OrderedByTotal(db, order, rows)
  {
    var o := RankedOrder(Totals(db, order));
    var rows := EntriesAlong(db, order, o);
    LeaderboardFacts(db, order, o, rows);
    rows
  }

  /** The entries built along the sorted order `o`: place k holds the player at index o[k], with position k + 1. */
  function EntriesAlong(db: Db, order: seq<string>, o: seq<nat>): (rows: seq<Entry>)
    requires Enumerates(order, db.players.Keys)
    requires forall k :: 0 <= k < |o| ==> o[k] < |order|
    ensures |rows| == |o|
    ensures forall k :: 0 <= k < |o| ==> rows[k] == EntryOf(db, order[o[k]], k + 1)
  {
    seq(|o|, k requires 0 <= k < |o| => EntryOf(db, order[o[k]], k + 1))
  }

  /** What the sorted order `o` of the grouped rows makes of the entries built along it. */
  lemma LeaderboardFacts(db: Db, order: seq<string>, o: seq<nat>, rows: seq<Entry>)
    requires Enumerates(order, db.players.Keys)
    requires RanksAlong(Totals(db, order), o)
    requires |rows| == |o| && forall k :: 0 <= k < |o| ==> rows[k] == EntryOf(db, order[o[k]], k + 1)
    ensures |rows| == |order|
    ensures OneRowPerPlayer(db, rows)
    ensures RowsCarryAggregates(db, rows)
    ensures forall k :: 0 <= k < |rows| ==> rows[k].player in order
    ensures PositionsAreFirstRanks(db, order, rows)
    ensures OrderedByTotal(db, order, rows)
  {
    RowsFollowOrder(db, order, o, rows);
    EveryPlayerHasARow(db, order, o, rows);
    RowsAreOrderedByTotal(db, order, o, rows);
    EntriesCarryAggregates(db, order, o, rows);
  }

  /** Each entry carries its player's aggregates, and its position is the player's 'first' rank. */
  lemma EntriesCarryAggregates(db: Db, order: seq<string>, o: seq<nat>, rows: seq<Entry>)
    requires Enumerates(order, db.players.Keys)
    requires RanksAlong(Totals(db, order), o)
    requires |rows| == |o| && forall k :: 0 <= k < |o| ==> rows[k] == EntryOf(db, order[o[k]], k + 1)
    requires forall k :: 0 <= k < |rows| ==> rows[k].player in order && IndexIn(order, rows[k].player) == o[k]
    ensures forall k :: 0 <= k < |rows| ==> rows[k].player in db.players
    ensures RowsCarryAggregates(db, rows)
    ensures PositionsAreFirstRanks(db, order, rows)
  {
    forall k | 0 <= k < |rows|
      ensures rows[k].player in db.players
      ensures rows[k].games == GamesPlayed(db.logs, rows[k].player)
      ensures rows[k].lpGainedLost == Decimal.Label(TotalChange(db.logs, rows[k].player))
      ensures Decimal.ParseLabel(rows[k].lpGainedLost) == Some(TotalChange(db.logs, rows[k].player))
      ensures db.players[rows[k].player] == Standing(rows[k].rank, rows[k].division, rows[k].currentLp)
    {
      var n := order[o[k]];
      assert rows[k] == EntryOf(db, n, k + 1);
    }
  }

  /** The entry at each place belongs to the name at index o[k] of `order`, and no name repeats. */
  lemma RowsFollowOrder(db: Db, order: seq<string>, o: seq<nat>, rows: seq<Entry>)
    requires Enumerates(order, db.players.Keys)
    requires RanksAlong(Totals(db, order), o)
    requires |rows| == |o| && forall k :: 0 <= k < |o| ==> rows[k] == EntryOf(db, order[o[k]], k + 1)
    ensures forall k :: 0 <= k < |rows| ==> rows[k].player in order && IndexIn(order, rows[k].player) == o[k]
    ensures forall a, b :: 0 <= a < b < |rows| ==> rows[a].player != rows[b].player
  {
    var t := Totals(db, order);
    forall k | 0 <= k < |rows| ensures rows[k].player in order && IndexIn(order, rows[k].player) == o[k] {
      PlayerIndex(db, order, o, rows, k);
    }
    forall a, b | 0 <= a < b < |rows| ensures rows[a].player != rows[b].player {
      assert FirstRank(t, o[a]) != FirstRank(t, o[b]);
    }
  }

  /** Every registered player gets a row. */
  lemma EveryPlayerHasARow(db: Db, order: seq<string>, o: seq<nat>, rows: seq<Entry>)
    requires Enumerates(order, db.players.Keys)
    requires RanksAlong(Totals(db, order), o)
    requires |rows| == |o| && forall k :: 0 <= k < |o| ==> rows[k] == EntryOf(db, order[o[k]], k + 1)
    ensures forall n :: n in db.players ==> exists k :: 0 <= k < |rows| && rows[k].player == n
  {
    forall n | n in db.players ensures exists k :: 0 <= k < |rows| && rows[k].player == n {
      var i := IndexIn(order, n);
      assert i in o;
      var k :| 0 <= k < |o| && o[k] == i;
      assert rows[k].player == n;
    }
  }

  /** Along the rows totals never rise, and equal totals keep the order of delivery. */
  lemma RowsAreOrderedByTotal(db: Db, order: seq<string>, o: seq<nat>, rows: seq<Entry>)
    requires Enumerates(order, db.players.Keys)
    requires RanksAlong(Totals(db, order), o)
    requires |rows| == |o| && forall k :: 0 <= k < |o| ==> rows[k] == EntryOf(db, order[o[k]], k + 1)
    requires forall k :: 0 <= k < |rows| ==> rows[k].player in order && IndexIn(order, rows[k].player) == o[k]
    ensures OrderedByTotal(db, order, rows)
  {
    var t := Totals(db, order);
    forall a, b | 0 <= a < b < |rows|
      ensures var ta, tb := TotalChange(db.logs, rows[a].player), TotalChange(db.logs, rows[b].player);
        ta > tb || (ta == tb && IndexIn(order, rows[a].player) < IndexIn(order, rows[b].player))
    {
      assert Outranks(t, o[a], o[b]);
      assert t[o[a]] == TotalChange(db.logs, rows[a].player);
      assert t[o[b]] == TotalChange(db.logs, rows[b].player);
    }
  }

  /** The entry at place k belongs to the name at index o[k] of `order`. */
  lemma PlayerIndex(db: Db, order: seq<string>, o: seq<nat>, rows: seq<Entry>, k: nat)
    requires Enumerates(order, db.players.Keys)
    requires |rows| == |o| && k < |o| && o[k] < |order|
    requires order[o[k]] in db.players && rows[k] == EntryOf(db, order[o[k]], k + 1)
    ensures rows[k].player in order && IndexIn(order, rows[k].player) == o[k]
  {
  }

  /** When SQLite delivers the rows by non-increasing total, the leaderboard keeps that order. */
  lemma SortedDeliveryKeepsOrder(db: Db, order: seq<string>)
    requires Enumerates(order, db.players.Keys)
    requires forall a, b :: 0 <= a < b < |order| ==> TotalChange(db.logs, order[a]) >= TotalChange(db.logs, order[b])
    ensures forall k :: 0 <= k < |order| ==> Leaderboard(db, order)[k].player == order[k]
  {
    var t := Totals(db, order);
    assert forall a, b :: 0 <= a < b < |t| ==> t[a] >= t[b] by {
      forall a, b | 0 <= a < b < |t| ensures t[a] >= t[b] {
        assert t[a] == TotalChange(db.logs, order[a]) && t[b] == TotalChange(db.logs, order[b]);
      }
    }
    var rows := Leaderboard(db, order);
    forall k | 0 <= k < |order| ensures rows[k].player == order[k] {
      PlaceOnSortedTotals(t, order, rows[k].player, k, rows[k].position);
    }
  }

  /** On non-increasing totals, the name whose 'first' rank is k + 1 is the name at index k. */
  lemma PlaceOnSortedTotals(t: seq<int>, order: seq<string>, name: string, k: nat, position: nat)
    requires |t| == |order| && k < |order| && name in order
    requires forall a, b :: 0 <= a < b < |t| ==> t[a] >= t[b]
    requires position == k + 1 && position == FirstRank(t, IndexIn(order, name))
    ensures name == order[k]
  {
    SortedInputKeepsOrder(t, IndexIn(order, name));
  }
}

=== FILE: registry.dfy ===
/**
 * The players and logs tables and the two operations that write them:
 * `register_player` (app_test.py:65-77) and `log_match` (app_test.py:80-101).
 * The database is an immutable value; each operation returns the next one
 * together with what the user was told.
 */
module Registry {
  import opened Wrappers
  import opened Ladder

  /** A row of the logs table. Its position in `Db.logs` stands for its auto-increment id (index + 1). */
  datatype LogRow = LogRow(player: string, result: string, lpChange: int, totalLp: int, rank: string, division: string)

  /** The players table keyed by name (the primary key at app_test.py:17) and the append-only logs table. */
  datatype Db = Db(players: map<string, Standing>, logs: seq<LogRow>)

  const EmptyDb: Db := Db(map[], [])

  /**
   * What an operation reports. `Raised` is an uncaught ValueError from the
   * ladder; `Hangs` is a call that never returns.
   */
  datatype Status = Registered | AlreadyRegistered | Logged | PlayerNotFound | Raised(error: LadderError) | Hangs

  datatype Outcome = Outcome(db: Db, status: Status)

  /**
   * `register_player`: insert-if-absent on the player name. A taken name is
   * refused and nothing changes; a new name is stored with exactly the given
   * rank, division and LP, which are not validated.
   */
  function Register(db: Db, name: string, rank: string, division: string, lp: int): (r: Outcome)
    ensures r.status == AlreadyRegistered <==> name in db.players
    ensures name in db.players ==> r.db == db
    ensures name !in db.players ==>
      && r.status == Registered
      && r.db.players.Keys == db.players.Keys + {name}
      && r.db.players[name] == Standing(rank, division, lp)
      && (forall n :: n in db.players ==> r.db.players[n] == db.players[n])
      && r.db.logs == db.logs
  {
    if name in db.players then Outcome(db, AlreadyRegistered)
    else Outcome(Db(db.players[name := Standing(rank, division, lp)], db.logs), Registered)
  }

  /** The absolute LP after a match (app_test.py:93): 'Win' adds the magnitude, any other result subtracts it. */
  function MatchLp(current: int, result: string, magnitude: int): int {
    if result == "Win" then current + magnitude else current - magnitude
  }

  /** The standing a log row records. */
  function Snapshot(row: LogRow): Standing {
    Standing(row.rank, row.division, row.totalLp)
  }

  /**
   * `log_match`. An unknown player is reported and nothing changes; a missing
   * magnitude counts as 0. Otherwise the player's standing becomes the
   * ladder's output for `MatchLp`, and exactly one log row is appended that
   * holds the magnitude, the result and that new standing. No other player
   * changes. A ladder that raises or never returns writes nothing.
   */
  function LogMatch(db: Db, name: string, result: string, lpChange: Option<int>): (r: Outcome)
    ensures name !in db.players ==> r == Outcome(db, PlayerNotFound)
    ensures r.status != Logged ==> r.db == db
    ensures name in db.players ==>
      var before := db.players[name];
      var walk := UpdateRankAndDivision(before.rank, before.division, MatchLp(before.lp, result, lpChange.GetOr(0)));
      && (r.status == Logged <==> walk.Returns?)
      && (walk.Returns? ==> name in r.db.players && r.db.players[name] == walk.value)
      && (walk.Raises? ==> r.status == Raised(walk.error))
      && (walk.Diverges? ==> r.status == Hangs)
  {
    if name !in db.players then Outcome(db, PlayerNotFound)
    else
      var before := db.players[name];
      var magnitude := lpChange.GetOr(0);
      match UpdateRankAndDivision(before.rank, before.division, MatchLp(before.lp, result, magnitude))
      case Returns(after) =>
        var row := LogRow(name, result, magnitude, after.lp, after.rank, after.division);
        Outcome(Db(db.players[name := after], db.logs + [row]), Logged)
      case Raises(e) => Outcome(db, Raised(e))
      case Diverges => Outcome(db, Hangs)
  }

  /**
   * A logged match changes the named player only, to a standing below 100
   * LP, and appends exactly one row that records the result, the magnitude
   * and that new standing.
   */
  lemma LogMatchAppendsOneRow(db: Db, name: string, result: string, lpChange: Option<int>)
    ensures var r := LogMatch(db, name, result, lpChange);
      r.status == Logged ==>
      && name in db.players
      && r.db.players.Keys == db.players.Keys
      && (forall n :: n in db.players && n != name ==> r.db.players[n] == db.players[n])
      && r.db.players[name].lp < 100
      && |r.db.logs| == |db.logs| + 1
      && r.db.logs[..|db.logs|] == db.logs
      && r.db.logs[|db.logs|].player == name
      && r.db.logs[|db.logs|].result == result
      && r.db.logs[|db.logs|].lpChange == lpChange.GetOr(0)
      && Snapshot(r.db.logs[|db.logs|]) == r.db.players[name]
  {
  }

  /** Row `i` is the most recent row of its player. */
  predicate IsLatest(logs: seq<LogRow>, i: nat)
    requires i < |logs|
  {
    forall j :: i < j < |logs| ==> logs[j].player != logs[i].player
  }

  /**
   * Every log row names a registered player (the foreign key at
   * app_test.py:32), and each player's most recent row records the
   * player's current standing.
   */
  predicate Consistent(db: Db) {
    && (forall i :: 0 <= i < |db.logs| ==> db.logs[i].player in db.players)
    && (forall i :: 0 <= i < |db.logs| && IsLatest(db.logs, i) ==> Snapshot(db.logs[i]) == db.players[db.logs[i].player])
  }

  /** Registration keeps the database consistent. */
  lemma RegisterKeepsConsistent(db: Db, name: string, rank: string, division: string, lp: int)
    requires Consistent(db)
    ensures Consistent(Register(db, name, rank, division, lp).db)
  {
  }

  /** Logging a match keeps the database consistent, whatever its outcome. */
  lemma LogMatchKeepsConsistent(db: Db, name: string, result: string, lpChange: Option<int>)
    requires Consistent(db)
    ensures Consistent(LogMatch(db, name, result, lpChange).db)
  {
    var r := LogMatch(db, name, result, lpChange);
    LogMatchAppendsOneRow(db, name, result, lpChange);
    if r.status == Logged {
      var logs := r.db.logs;
      forall i | 0 <= i < |logs| && IsLatest(logs, i)
        ensures Snapshot(logs[i]) == r.db.players[logs[i].player]
      {
        if i < |db.logs| {
          assert logs[i] == db.logs[i];
          assert logs[i].player != name;
          assert IsLatest(db.logs, i) by {
            forall j | i < j < |db.logs| ensures db.logs[j].player != db.logs[i].player {
              assert logs[j] == db.logs[j];
            }
          }
        }
      }
      forall i | 0 <= i < |logs| ensures logs[i].player in r.db.players {
        if i < |db.logs| {
          assert logs[i] == db.logs[i];
        }
      }
    }
  }

  /**
   * A win of `m` followed by a loss of `m` gives the player back the exact
   * standing it had, when the win stays inside the division (LP + m < 100).
   */
  lemma WinThenLoseRestores(db: Db, name: string, m: int)
    requires name in db.players
    requires ParseDivision(db.players[name].division).Some?
    requires 0 <= m && db.players[name].lp + m < 100
    ensures var win := LogMatch(db, name, "Win", Some(m));
      var lose := LogMatch(win.db, name, "Lose", Some(m));
      && win.status == Logged && lose.status == Logged
      && lose.db.players == db.players
      && |lose.db.logs| == |db.logs| + 2
  {
    var before := db.players[name];
    var raised := before.(lp := before.lp + m);
    var win := LogMatch(db, name, "Win", Some(m));
    MatchSetsLp(db, name, "Win", m, before.lp + m);
    MatchSetsLp(win.db, name, "Lose", m, before.lp);
    assert db.players[name := raised][name := before] == db.players;
  }

  /** `LogMatchInsideDivision` for a given magnitude `m` whose resulting LP `lp` is known. */
  lemma MatchSetsLp(db: Db, name: string, result: string, m: int, lp: int)
    requires name in db.players
    requires ParseDivision(db.players[name].division).Some?
    requires MatchLp(db.players[name].lp, result, m) == lp < 100
    ensures var r := LogMatch(db, name, result, Some(m));
      && r.status == Logged
      && r.db.players == db.players[name := db.players[name].(lp := lp)]
      && |r.db.logs| == |db.logs| + 1
  {
    LogMatchInsideDivision(db, name, result, Some(m));
    assert Some(m).GetOr(0) == m;
  }

  /**
   * A match whose LP stays below 100 changes only the player's LP, to
   * exactly `MatchLp`: the ladder keeps rank and division, as long as the
   * stored division is one the divisions list holds.
   */
  lemma LogMatchInsideDivision(db: Db, name: string, result: string, lpChange: Option<int>)
    requires name in db.players
    requires ParseDivision(db.players[name].division).Some?
    requires MatchLp(db.players[name].lp, result, lpChange.GetOr(0)) < 100
    ensures var before := db.players[name];
      var r := LogMatch(db, name, result, lpChange);
      && r.status == Logged
      && r.db.players == db.players[name := before.(lp := MatchLp(before.lp, result, lpChange.GetOr(0)))]
      && |r.db.logs| == |db.logs| + 1
  {
  }

  /**
   * Crossing a boundary is not undone: from Iron 'IV' at 90 LP a win of 20
   * promotes to Bronze 'I' at 10, and the loss of 20 that follows leaves
   * Bronze 'I' at -10, since the ladder never demotes.
   */
  lemma BoundaryCrossingIsNotUndone()
    ensures var db := Register(EmptyDb, "A", "Iron", "IV", 90).db;
      var win := LogMatch(db, "A", "Win", Some(20));
      var lose := LogMatch(win.db, "A", "Lose", Some(20));
      && win.db.players["A"] == Standing("Bronze", "I", 10)
      && lose.db.players["A"] == Standing("Bronze", "I", -10)
  {
    UpdateFromKnownRung(0, 0, 110);
    ClimbFromKnownRung(0, 0, 110);
    assert Chunks(110) == 1 && Remainder(110) == 10;
    assert UpdateRankAndDivision("Iron", "IV", 110) == Returns(Standing("Bronze", "I", 10));
  }
}

=== FILE: wrappers.dfy ===
/** Failure-carrying datatypes shared by the ladder, the registry and the leaderboard. */
module Wrappers {

  /** A value that may be absent: a Python `None`, or a lookup that found nothing. */
  datatype Option<+T> = None | Some(value: T) {

    /** The value, or `default` when absent (Python's `x if x is not None else default`). */
    function GetOr(default: T): T {
      match this
      case Some(v) => v
      case None => default
    }
  }

  /** The outcome of a step that either produces a value or raises an error. */
  datatype Result<+T, +E> = Ok(value: T) | Err(error: E)
}
